=== FILE: README.md ===
# secret-keeper: the file pipeline, modelled in Dafny

secret-keeper keeps secret files in a git working tree encrypted. A
configured list of glob patterns names the secret files. An external vault
tool encrypts and decrypts them. Before a commit, the `encrypt` command
encrypts every matched file, runs `git diff` on each file it encrypted
successfully, and restores with
`git restore` every file with history whose `git diff` printed nothing. The
keeper's setup registers `<tool> <view args>` as the diff driver for the
secret patterns (pkg/secretkeeper/secret_keeper.go:225-236), so an empty diff
means the decrypted secrets did not change, and a commit shows only real
secret changes. `decrypt` runs the tool's
decrypt arguments over the matched files; `clean` restores unchanged files
without encrypting.

The keeper (`pkg/secretkeeper/secret_keeper.go`) builds each command from
five channel stages:

- `MatchFiles` expands the patterns, in one goroutine, in order.
- `Differ`, `Encrypt` and `Decrypt` start one goroutine per file.
- `Clean` looks up `git log` per file in one goroutine, then issues one
  batched `git restore`.

The model:

- `Commander` (commander.dfy) is the outside world. Every external
  result is an oracle: a total function held in a `World`. This covers the
  glob expansion of a pattern, the output of `git diff`, `git log` and
  `git restore`, and the exit status of `<tool> <args...> <file>`. Every
  external invocation a stage makes is recorded as a `Call`, so contracts
  can count invocations and say what comes last.
- `Seqs` (seqs.dfy) holds order-preserving `Keep` (filter) and `Map`,
  and the facts about them that the stages need: concatenation,
  occurrence counts, and behaviour under reordering.
- `Config` (config.dfy) is the configuration record.
- `Secretkeeper` (secret_keeper.dfy) holds the keeper's state, its
  configuration, and the five stages.
  - `MatchFiles` and `Clean` keep their input order, so their contracts
    are sequence equalities.
  - `Differ`, `Encrypt` and `Decrypt` share `FanOut`. It picks the next
    finishing goroutine with `:|` and returns the completion order it
    chose. Their contracts hold for every order and are stated as
    multisets.
- `Cmd` (cmd.dfy) chains the stages as the three commands do, drains the
  last stage, and states what a whole run forwards and which calls it
  makes.
- `Scenarios` (scenarios.dfy) holds one concrete clean run against a fixed
  two-file world, a single-survivor clean run for any keeper and world, and
  two encrypt runs that stop with a configuration error in every world.

A command's trace lists each stage's calls, one stage after the other. In
the program the stages overlap in time; see "Left out".

## Model

| member | source | states |
|---|---|---|
| Secretkeeper.NewSecretKeeper | pkg/secretkeeper/secret_keeper.go:29-31 | Every field is at its zero value: no patterns, no tool, no arguments, level Panic. With no patterns it matches nothing, whatever the glob results. |
| Secretkeeper.InitConfig | pkg/secretkeeper/secret_keeper.go:50-61 | The getters return the configured tool, encrypt, decrypt and view arguments verbatim. The patterns are copied verbatim. The level is Debug exactly when the configuration asks for debug, and Info exactly when it does not. |
| Secretkeeper.Matched | pkg/secretkeeper/secret_keeper.go:67-84 | The matcher never emits `config.secret-keeper.yaml`. |
| Secretkeeper.MatchedContains | pkg/secretkeeper/secret_keeper.go:67-84 | A path is emitted if and only if some configured pattern's glob returned it and it is not the configuration file. |
| Secretkeeper.MatchedAppend | pkg/secretkeeper/secret_keeper.go:67-85 | Patterns are expanded in order. The output for `ps + qs` is the output for `ps` followed by that for `qs`, so duplicates across patterns are kept. |
| Secretkeeper.MatchedIgnoresGlobErrors | pkg/secretkeeper/secret_keeper.go:68-78 | A glob error is only logged. Two worlds that return the same files, whatever their error flags, give the same output. |
| Secretkeeper.MatchedSkipsEmptyPattern | pkg/secretkeeper/secret_keeper.go:67-84 | A pattern that matches nothing contributes nothing. Dropping it leaves the output unchanged, and later patterns are still expanded. |
| Secretkeeper.MatchedBadPatternExample | pkg/secretkeeper/secret_keeper_test.go:253-261 | `["*.go", "["]` yields the two `.go` files. The malformed second pattern does not stop the first. |
| Secretkeeper.SendMatchable | pkg/secretkeeper/secret_keeper.go:79-84 | The inner loop sends exactly the pattern's files other than the configuration file, in glob order. |
| Secretkeeper.MatchFiles | pkg/secretkeeper/secret_keeper.go:64-89 | The stage emits the matcher's output. It issues exactly one glob per configured pattern, in pattern order. |
| Secretkeeper.FanOut | pkg/secretkeeper/secret_keeper.go:130-149 | Goroutines may finish in any order. Whatever that order is, it rearranges the input. The stage forwards, in that order, the files that pass. It makes one call per input occurrence, in that order. |
| Secretkeeper.FanOutAll | pkg/secretkeeper/secret_keeper.go:130-149 | As multisets: output = the input's passing occurrences, and output is a sub-multiset of the input. A file is forwarded if and only if it was input and passes. Calls = one per input occurrence. |
| Secretkeeper.Differ | pkg/secretkeeper/secret_keeper.go:127-152 | Forwards a file if and only if `git diff` printed nothing for it, whatever the command's error status. Output is a sub-multiset of the input. Exactly one diff per input occurrence. |
| Secretkeeper.RunTool | pkg/secretkeeper/secret_keeper.go:159-174 | Runs `<tool> <args...> <file>` once per input occurrence. Forwards a file if and only if that run returned no error, so a failure drops only that file. |
| Secretkeeper.Encrypt | pkg/secretkeeper/secret_keeper.go:155-179 | RunTool with the encrypt arguments: one encrypt run per occurrence; output = occurrences whose encryption succeeded. |
| Secretkeeper.Decrypt | pkg/secretkeeper/secret_keeper.go:182-208 | RunTool with the decrypt arguments: one decrypt run per occurrence; output = occurrences whose decryption succeeded. |
| Secretkeeper.Clean | pkg/secretkeeper/secret_keeper.go:91-125 | Output = input filtered by "git log printed something", in input order, duplicates kept. The log's error status is ignored. One log lookup per input occurrence, in order. At most one restore: issued exactly when the batch is non-empty, after every lookup, over exactly the forwarded list. The restore's result does not affect the output. |
| Secretkeeper.CleanWithoutHistory | pkg/secretkeeper/secret_keeper.go:96-110 | When every `git log` prints nothing, whatever its error status, Clean forwards nothing and issues no restore; it still looks up every file. |
| Cmd.EncryptCmdRun | cmd/encrypt.go:20-33 | Fails with a configuration error exactly when the encrypt arguments are empty or the tool name is empty; the decrypt arguments are not checked. Otherwise, in any completion order: the batch is, as a multiset, the matched occurrences whose encryption succeeded, whose diff after encryption printed nothing, and that have history. Exactly one encrypt run per matched occurrence. Exactly one diff per matched occurrence whose encryption succeeded, and only those files are diffed. History is looked up only for those of them whose diff printed nothing. At most one restore, over the batch and last. |
| Cmd.EncryptSurvivors | cmd/encrypt.go:25-27 | A file enters the restore batch if and only if it was matched, its encryption succeeded, its diff was empty and its history is non-empty. |
| Cmd.EncryptSurvivorCount | cmd/encrypt.go:25-27 | Composing Encrypt, Differ and Clean in any completion order gives, as a multiset, the matched files filtered by all three predicates at once. |
| Cmd.EncryptTraceRestores | cmd/encrypt.go:25-31 | A run's only restore is the clean stage's, and when the batch is non-empty it is the last call of the run. |
| Cmd.EncryptTraceTools | cmd/encrypt.go:25-27 | The tool runs of an encrypt run are exactly one encrypt run per matched occurrence. |
| Cmd.EncryptTraceDiffs | cmd/encrypt.go:25-26 | A file whose encryption failed is never diffed. |
| Cmd.EncryptTraceDiffCount | cmd/encrypt.go:25-26 | The diffs of an encrypt run are exactly one per matched occurrence whose encryption succeeded. |
| Cmd.EncryptTraceLogs | cmd/encrypt.go:25-27 | History is looked up only for matched files whose encryption succeeded and whose diff printed nothing. |
| Cmd.DecryptCmdRun | cmd/decrypt.go:22-35 | Fails with a configuration error exactly when the encrypt arguments are empty or the tool name is empty; empty decrypt arguments alone do not stop it. Otherwise: output = exactly the matched occurrences whose decryption succeeded (multiset and membership). The run issues only globs and tool runs, never a diff, log or restore. Exactly one decrypt run per matched occurrence. |
| Cmd.DecryptTrace | cmd/decrypt.go:24-29 | A glob stage followed by a decrypt stage contains only globs and tool runs. Its tool runs are one per matched occurrence. |
| Cmd.CleanCmdRun | cmd/clean.go:19-26 | No precondition, and the tool is never run. The batch is the matched occurrences, with duplicates, whose diff printed nothing and that have history; a file with a non-empty diff is never restored. Exactly one diff per matched occurrence, and a file is diffed exactly when it was matched. At most one restore, over the batch and last. Only matched files with an empty diff have their history looked up. |
| Cmd.CleanTraceDiffs | cmd/clean.go:20-21 | The diffs of a clean run are exactly one per matched occurrence; a file is diffed exactly when it was matched. |
| Cmd.CleanSurvivors | cmd/clean.go:20-22 | Composing Differ and Clean in any completion order gives the matched files filtered by "empty diff and history", as a multiset and by membership. |
| Cmd.CleanRunsAgree | cmd/clean.go:19-26 | Two clean runs that see the same glob files, diff outputs and history outputs forward the same files as a multiset, whatever the completion order of either run, and issue the same number of restores, at most one each. |
| Cmd.CleanCmdTrace | cmd/clean.go:20-22 | A clean run has no tool runs. Its only restore is the clean stage's, which comes last. It looks up history only for matched files whose diff was empty. |
| Scenarios.CleanRestoresUnchangedOnly | cmd/clean.go:19-26 | `*.secret` matches `a.secret` (unchanged) and `b.secret` (modified), and both have history. The clean command forwards `["a.secret"]` and issues one restore, over `["a.secret"]`. The history of `b.secret` is never looked up. |
| Scenarios.CleanOne | cmd/clean.go:19-26 | When exactly one matched occurrence has an empty diff and history, the clean command forwards just it and restores just it, in one call; history is looked up only for matched files with an empty diff. |
| Scenarios.ZeroConfigCannotEncrypt | cmd/encrypt.go:21-24 | A keeper initialised from the zero configuration makes the encrypt command stop with a configuration error, whatever the world. |
| Scenarios.EncryptNeedsTool | cmd/encrypt.go:22-24 | With no tool configured, the encrypt command stops with a configuration error, whatever the world. |
| Seqs.KeepAfterReorder | pkg/secretkeeper/secret_keeper.go:131-146 | A per-file filter applied after a stage that reorders its output equals, as a multiset, filtering the original input by both predicates. This is why a pipeline's survivors do not depend on goroutine timing. |

## Behaviour that is easy to get wrong

The model follows the code in each case.

- The matcher does not deduplicate: a file matched by two patterns is
  emitted twice (pkg/secretkeeper/secret_keeper.go:67-84). No later stage
  deduplicates either, so Clean puts a path into its batch once per
  occurrence (pkg/secretkeeper/secret_keeper.go:104-106).
- Differ forwards a file whenever the diff printed nothing, even when the
  diff command failed (pkg/secretkeeper/secret_keeper.go:136-145).
- Clean batches a file whenever `git log` printed something, whatever its
  error status (pkg/secretkeeper/secret_keeper.go:96-107).
- Clean issues no restore at all for an empty batch
  (pkg/secretkeeper/secret_keeper.go:110).
- Both the encrypt and the decrypt command start the matcher and then test
  the encrypt arguments and the tool name (cmd/encrypt.go:21-22,
  cmd/decrypt.go:24-25). Neither command checks the decrypt arguments;
  the decrypt command only passes them to the tool
  (pkg/secretkeeper/secret_keeper.go:191).

## Left out

- Logging and `log.SetLevel`. The debug and non-debug messages only
  report. The model keeps the level as a field, set by `InitConfig`.
- Goroutines, channels and WaitGroups. They are replaced by a
  completion order chosen freely (`FanOut`) and multiset contracts. Every
  stage closes its output only after all of its workers finish. Because
  every command drains the last stage, all of a run's calls have happened
  when the command returns.
- Concurrency across stages. The trace places each stage's calls after
  the previous stage's calls. In the program, a stage's calls may
  interleave with the next stage's. The contracts that depend on the
  trace are per-stage multisets plus "the restore comes last". Both also
  hold of every interleaving, because Clean restores only after its input
  channel closes.
- Cmd.EncryptCmdRun: a configuration error carries no trace. The
  matcher's goroutine may already have issued some globs before
  `log.Fatal` exits the process, and which ones depends on timing.
- Cmd.DecryptCmdRun: a configuration error carries no trace, for the same
  reason as the encrypt command.
- Cmd.CleanRunsAgree: assumes the second run sees the same diff and
  history outputs as the first. The model has no working tree, so it does
  not derive those outputs from what the first run's restore did.
- Effects of one call on later calls. A `World` answers every call on the
  same file with the same result for the whole run. The model therefore
  does not capture how one call's effect on the working tree changes a
  later call. Three cases matter:
  - A file matched twice is encrypted twice, concurrently, and the second
    run may act on the first one's output.
  - One occurrence may be diffed after a sibling occurrence's encryption.
  - The restore changes what later diffs would print.
  The duplicate counts in `Encrypt` and `Cmd.EncryptCmdRun` rest on this
  assumption.
- `BuildGitAttributes`, `BuildGitConfig`, `AddPreCommitHook`. These are
  file writes and git plumbing outside the pipeline.
- Process spawning, and the glob semantics of `filepath.Glob`. They are
  oracles in `World`.
  - `pkg/commander/commander.go` as shown has only a stale `Commands`
    wrapper. `Command`, `GitDiff`, `GitLog` and `GitRestore` are not part
    of this model except as oracles.
  - `pkg/helpers/helpers.go`'s `FileList` no longer matches its caller's
    signature; the glob oracle returns both files and an error flag, as
    the caller expects.
- The legacy per-file-restore variants (`cmd/commander.go`,
  `cmd/helper.go`, `pkg/utils/utils.go`, `pkg/vault/vault.go`). The three
  commands do not use them.
- Cobra and viper wiring, and config-file discovery. `Config.NewConfig`
  mirrors the zero record; it is used only in the scenario
  `Scenarios.ZeroConfigCannotEncrypt`.
- Go's distinction between a nil slice and an empty slice. Both are `[]`.
  The code only ever looks at the length.
- The randomised fake-command tests cannot be mirrored as fixed inputs.
  The Clean test (pkg/secretkeeper/secret_keeper_test.go:282-369) also
  contradicts the code as written. Its fake runner always returns empty
  output (pkg/secretkeeper/secret_keeper_test.go:294-306), yet the test
  expects every input file forwarded. Clean forwards only files whose
  history output is non-empty (pkg/secretkeeper/secret_keeper.go:104), so
  with that runner it forwards nothing, as `CleanWithoutHistory` states.
  This assumes `GitLog` passes the runner's output through; `GitLog` is
  not part of this model.

=== FILE: cmd.dfy ===
/** The three commands that chain the keeper's stages. Each drains the last
    stage's output before returning, so every external call of the run has
    been made when the command returns; a run's trace lists the calls of
    each stage, stage after stage. */
module Cmd {
  import opened Seqs
  import opened Commander
  import opened Secretkeeper

  datatype RunResult =
    | ConfigError
    | Finished(files: seq<string>, calls: seq<Call>)

  /** The guard both the encrypt and the decrypt command apply: there are
      encrypt arguments and a tool name. The decrypt arguments are never
      checked; the decrypt command only passes them to the tool. */
  predicate VaultToolDefined(k: SecretKeeper)
  {
    |k.GetEncryptArgs()| != 0 && k.GetVaultCommand() != ""
  }

  /** A file the encrypt command ends up restoring: its encryption
      succeeded, the diff afterwards printed nothing, and it has history. */
  function Restorable(w: World, k: SecretKeeper): string -> bool
  {
    Both(Both(ToolSucceeds(w, k.vaultTool, k.encryptArgs), DiffIsEmpty(w)), HistoryExists(w))
  }

  /** A file the clean command restores: the diff printed nothing and it
      has history. */
  function Cleanable(w: World): string -> bool
  {
    Both(DiffIsEmpty(w), HistoryExists(w))
  }

  // ------------------------------------------------------------ trace lemmas

  lemma GlobTrace(patterns: seq<string>)
    ensures Restores(Map(patterns, GlobCall)) == []
    ensures ToolRuns(Map(patterns, GlobCall)) == []
    ensures forall c :: c in Map(patterns, GlobCall) ==> c.Glob?
  {
    MapKeepNone(patterns, GlobCall, IsRestore);
    MapKeepNone(patterns, GlobCall, IsTool);
  }

  /** A trace with the calls of a fan-out stage, in any order. */
  lemma FanOutTrace(calls: seq<Call>, files: seq<string>, call: string -> Call)
    requires multiset(calls) == multiset(Map(files, call))
    requires forall f :: !call(f).GitRestore?
    ensures Restores(calls) == []
    ensures multiset(ToolRuns(calls)) == multiset(ToolRuns(Map(files, call)))
  {
    KeepPermutation(calls, Map(files, call), IsRestore);
    MapKeepNone(files, call, IsRestore);
    assert |Restores(calls)| == |multiset(Restores(calls))|;
    KeepPermutation(calls, Map(files, call), IsTool);
  }

  lemma CleanTrace(calls: seq<Call>, files: seq<string>, out: seq<string>)
    requires calls == Map(files, LogCall) + Restores(calls)
    requires Restores(calls) == (if |out| == 0 then [] else [GitRestore(out)])
    ensures ToolRuns(calls) == []
  {
    MapKeepNone(files, LogCall, IsTool);
    KeepAppend(Map(files, LogCall), Restores(calls), IsTool);
    if |out| > 0 {
      assert [GitRestore(out)][1..] == [];
    }
  }

  /** A tool stage issues nothing but tool runs. */
  lemma ToolStageKinds(calls: seq<Call>, files: seq<string>, tool: string, args: seq<string>)
    requires multiset(calls) == multiset(Map(files, ToolCall(tool, args)))
    ensures forall c :: c in calls ==> c.Tool?
  {
    forall c | c in calls
      ensures c.Tool?
    {
      assert c in multiset(Map(files, ToolCall(tool, args)));
    }
  }

  /** A diff stage diffs only the files it was given. */
  lemma DiffStageFiles(calls: seq<Call>, files: seq<string>)
    requires multiset(calls) == multiset(Map(files, DiffCall))
    ensures forall c :: c in calls ==> c.GitDiff?
    ensures forall f :: GitDiff(f) in calls ==> f in files
  {
    forall c | c in calls
      ensures c.GitDiff?
    {
      assert c in multiset(Map(files, DiffCall));
    }
    forall f | GitDiff(f) in calls
      ensures f in files
    {
      assert GitDiff(f) in multiset(Map(files, DiffCall));
      var i :| 0 <= i < |files| && Map(files, DiffCall)[i] == GitDiff(f);
    }
  }

  /** A clean stage issues nothing but history lookups and restores. */
  lemma CleanStageKinds(calls: seq<Call>, files: seq<string>, out: seq<string>)
    requires calls == Map(files, LogCall) + Restores(calls)
    requires Restores(calls) == (if |out| == 0 then [] else [GitRestore(out)])
    ensures forall c :: c in calls ==> c.GitLog? || c.GitRestore?
    ensures forall f :: GitLog(f) in calls ==> f in files
  {
    forall f | GitLog(f) in calls
      ensures f in files
    {
      if GitLog(f) in Map(files, LogCall) {
        var i :| 0 <= i < |files| && Map(files, LogCall)[i] == GitLog(f);
      }
    }
  }

  // ------------------------------------------------------------------ encrypt

  /** The files that survive Encrypt, Differ and Clean, whatever order the
      two fan-out stages finished in. */
  lemma EncryptSurvivors(
    w: World, k: SecretKeeper,
    matched: seq<string>, encrypted: seq<string>, undiffed: seq<string>, restored: seq<string>)
    requires multiset(encrypted) == multiset(Keep(matched, ToolSucceeds(w, k.vaultTool, k.encryptArgs)))
    requires multiset(undiffed) == multiset(Keep(encrypted, DiffIsEmpty(w)))
    requires restored == Keep(undiffed, HistoryExists(w))
    ensures multiset(restored) == multiset(Keep(matched, Restorable(w, k)))
    ensures forall f :: f in restored <==>
      && f in matched
      && !w.command(k.vaultTool, k.encryptArgs, f).failed
      && |w.gitDiff(f).out| == 0
      && |w.gitLog(f).out| > 0
  {
    EncryptSurvivorCount(w, k, matched, encrypted, undiffed, restored);
    KeepMembers(matched, restored, Restorable(w, k));
    forall f
      ensures f in restored <==>
        && f in matched
        && !w.command(k.vaultTool, k.encryptArgs, f).failed
        && |w.gitDiff(f).out| == 0
        && |w.gitLog(f).out| > 0
    {
      RestorableMeans(w, k, f);
    }
  }

  lemma EncryptSurvivorCount(
    w: World, k: SecretKeeper,
    matched: seq<string>, encrypted: seq<string>, undiffed: seq<string>, restored: seq<string>)
    requires multiset(encrypted) == multiset(Keep(matched, ToolSucceeds(w, k.vaultTool, k.encryptArgs)))
    requires multiset(undiffed) == multiset(Keep(encrypted, DiffIsEmpty(w)))
    requires restored == Keep(undiffed, HistoryExists(w))
    ensures multiset(restored) == multiset(Keep(matched, Restorable(w, k)))
  {
    var encOk, diffOk := ToolSucceeds(w, k.vaultTool, k.encryptArgs), DiffIsEmpty(w);
    KeepAfterReorder(matched, encrypted, encOk, diffOk);
    KeepAfterReorder(matched, undiffed, Both(encOk, diffOk), HistoryExists(w));
  }

  lemma RestorableMeans(w: World, k: SecretKeeper, f: string)
    ensures Restorable(w, k)(f) <==>
      && !w.command(k.vaultTool, k.encryptArgs, f).failed
      && |w.gitDiff(f).out| == 0
      && |w.gitLog(f).out| > 0
  {
  }

  /** The restores of an encrypt run are those of its clean stage: at most
      one, last, over exactly the forwarded files. */
  lemma EncryptTraceRestores(
    k: SecretKeeper, matched: seq<string>, encrypted: seq<string>, undiffed: seq<string>,
    restored: seq<string>,
    matchCalls: seq<Call>, encryptCalls: seq<Call>, diffCalls: seq<Call>, cleanCalls: seq<Call>)
    requires matchCalls == Map(k.filePatterns, GlobCall)
    requires multiset(encryptCalls) == multiset(Map(matched, ToolCall(k.vaultTool, k.encryptArgs)))
    requires multiset(diffCalls) == multiset(Map(encrypted, DiffCall))
    requires cleanCalls == Map(undiffed, LogCall) + Restores(cleanCalls)
    requires Restores(cleanCalls) == (if |restored| == 0 then [] else [GitRestore(restored)])
    ensures var calls := matchCalls + encryptCalls + diffCalls + cleanCalls;
      && Restores(calls) == Restores(cleanCalls)
      && (|restored| > 0 ==> calls[|calls| - 1] == GitRestore(restored))
  {
    GlobTrace(k.filePatterns);
    ToolStageKinds(encryptCalls, matched, k.vaultTool, k.encryptArgs);
    KeepNone(encryptCalls, IsRestore);
    DiffStageFiles(diffCalls, encrypted);
    KeepNone(diffCalls, IsRestore);
    TraceOfFour(matchCalls, encryptCalls, diffCalls, cleanCalls);
    if |restored| > 0 {
      assert cleanCalls[|cleanCalls| - 1] == GitRestore(restored);
    }
  }

  /** An encrypt run runs the tool once per matched occurrence, with the
      encrypt arguments, and at no other time. */
  lemma EncryptTraceTools(
    k: SecretKeeper, matched: seq<string>, encrypted: seq<string>, undiffed: seq<string>,
    restored: seq<string>,
    matchCalls: seq<Call>, encryptCalls: seq<Call>, diffCalls: seq<Call>, cleanCalls: seq<Call>)
    requires matchCalls == Map(k.filePatterns, GlobCall)
    requires multiset(encryptCalls) == multiset(Map(matched, ToolCall(k.vaultTool, k.encryptArgs)))
    requires multiset(diffCalls) == multiset(Map(encrypted, DiffCall))
    requires cleanCalls == Map(undiffed, LogCall) + Restores(cleanCalls)
    requires Restores(cleanCalls) == (if |restored| == 0 then [] else [GitRestore(restored)])
    ensures multiset(ToolRuns(matchCalls + encryptCalls + diffCalls + cleanCalls))
         == multiset(Map(matched, ToolCall(k.vaultTool, k.encryptArgs)))
  {
    GlobTrace(k.filePatterns);
    FanOutTrace(encryptCalls, matched, ToolCall(k.vaultTool, k.encryptArgs));
    KeepPermutation(diffCalls, Map(encrypted, DiffCall), IsTool);
    MapKeepNone(encrypted, DiffCall, IsTool);
    assert |ToolRuns(diffCalls)| == |multiset(ToolRuns(diffCalls))|;
    CleanTrace(cleanCalls, undiffed, restored);
    MapKeepAll(matched, ToolCall(k.vaultTool, k.encryptArgs), IsTool);
    TraceOfFour(matchCalls, encryptCalls, diffCalls, cleanCalls);
  }

  /** In an encrypt run, a file is diffed only after its encryption
      succeeded. */
  lemma EncryptTraceDiffs(
    w: World, k: SecretKeeper, matched: seq<string>, encrypted: seq<string>, undiffed: seq<string>,
    restored: seq<string>,
    matchCalls: seq<Call>, encryptCalls: seq<Call>, diffCalls: seq<Call>, cleanCalls: seq<Call>)
    requires matchCalls == Map(k.filePatterns, GlobCall)
    requires forall f :: f in encrypted ==> f in matched && !w.command(k.vaultTool, k.encryptArgs, f).failed
    requires multiset(encryptCalls) == multiset(Map(matched, ToolCall(k.vaultTool, k.encryptArgs)))
    requires multiset(diffCalls) == multiset(Map(encrypted, DiffCall))
    requires cleanCalls == Map(undiffed, LogCall) + Restores(cleanCalls)
    requires Restores(cleanCalls) == (if |restored| == 0 then [] else [GitRestore(restored)])
    ensures forall f :: GitDiff(f) in matchCalls + encryptCalls + diffCalls + cleanCalls ==>
      f in matched && !w.command(k.vaultTool, k.encryptArgs, f).failed
  {
    GlobTrace(k.filePatterns);
    ToolStageKinds(encryptCalls, matched, k.vaultTool, k.encryptArgs);
    DiffStageFiles(diffCalls, encrypted);
    CleanStageKinds(cleanCalls, undiffed, restored);
    DiffsFollowTools(w, k, matched, encrypted, matchCalls, encryptCalls, diffCalls, cleanCalls);
  }

  /** An encrypt run diffs each matched occurrence whose encryption
      succeeded exactly once, and nothing else. */
  lemma EncryptTraceDiffCount(
    w: World, k: SecretKeeper, matched: seq<string>, encrypted: seq<string>, undiffed: seq<string>,
    restored: seq<string>,
    matchCalls: seq<Call>, encryptCalls: seq<Call>, diffCalls: seq<Call>, cleanCalls: seq<Call>)
    requires matchCalls == Map(k.filePatterns, GlobCall)
    requires multiset(encrypted) == multiset(Keep(matched, ToolSucceeds(w, k.vaultTool, k.encryptArgs)))
    requires multiset(encryptCalls) == multiset(Map(matched, ToolCall(k.vaultTool, k.encryptArgs)))
    requires multiset(diffCalls) == multiset(Map(encrypted, DiffCall))
    requires cleanCalls == Map(undiffed, LogCall) + Restores(cleanCalls)
    requires Restores(cleanCalls) == (if |restored| == 0 then [] else [GitRestore(restored)])
    ensures multiset(Diffs(matchCalls + encryptCalls + diffCalls + cleanCalls))
         == multiset(Map(Keep(matched, ToolSucceeds(w, k.vaultTool, k.encryptArgs)), DiffCall))
  {
    GlobTrace(k.filePatterns);
    ToolStageKinds(encryptCalls, matched, k.vaultTool, k.encryptArgs);
    CleanStageKinds(cleanCalls, undiffed, restored);
    KeepNone(matchCalls, IsDiff);
    KeepNone(encryptCalls, IsDiff);
    KeepNone(cleanCalls, IsDiff);
    KeepPermutation(diffCalls, Map(encrypted, DiffCall), IsDiff);
    MapKeepAll(encrypted, DiffCall, IsDiff);
    MapPermutation(encrypted, Keep(matched, ToolSucceeds(w, k.vaultTool, k.encryptArgs)), DiffCall);
    KeepAppend(matchCalls + encryptCalls + diffCalls, cleanCalls, IsDiff);
    KeepAppend(matchCalls + encryptCalls, diffCalls, IsDiff);
    KeepAppend(matchCalls, encryptCalls, IsDiff);
  }

  /** An encrypt run looks up history only for matched files whose
      encryption succeeded and whose diff printed nothing. */
  lemma EncryptTraceLogs(
    w: World, k: SecretKeeper, matched: seq<string>, encrypted: seq<string>, undiffed: seq<string>,
    restored: seq<string>,
    matchCalls: seq<Call>, encryptCalls: seq<Call>, diffCalls: seq<Call>, cleanCalls: seq<Call>)
    requires matchCalls == Map(k.filePatterns, GlobCall)
    requires forall f :: f in encrypted <==> f in matched && !w.command(k.vaultTool, k.encryptArgs, f).failed
    requires forall f :: f in undiffed <==> f in encrypted && |w.gitDiff(f).out| == 0
    requires multiset(encryptCalls) == multiset(Map(matched, ToolCall(k.vaultTool, k.encryptArgs)))
    requires multiset(diffCalls) == multiset(Map(encrypted, DiffCall))
    requires cleanCalls == Map(undiffed, LogCall) + Restores(cleanCalls)
    requires Restores(cleanCalls) == (if |restored| == 0 then [] else [GitRestore(restored)])
    ensures forall f :: GitLog(f) in matchCalls + encryptCalls + diffCalls + cleanCalls ==>
      && f in matched
      && !w.command(k.vaultTool, k.encryptArgs, f).failed
      && |w.gitDiff(f).out| == 0
  {
    GlobTrace(k.filePatterns);
    ToolStageKinds(encryptCalls, matched, k.vaultTool, k.encryptArgs);
    DiffStageFiles(diffCalls, encrypted);
    CleanStageKinds(cleanCalls, undiffed, restored);
    forall f | GitLog(f) in matchCalls + encryptCalls + diffCalls + cleanCalls
      ensures f in matched && !w.command(k.vaultTool, k.encryptArgs, f).failed && |w.gitDiff(f).out| == 0
    {
      InFour(GitLog(f), matchCalls, encryptCalls, diffCalls, cleanCalls);
    }
  }

  /** Only the diff stage diffs, and it diffs only what the tool stage
      forwarded. */
  lemma DiffsFollowTools(
    w: World, k: SecretKeeper, matched: seq<string>, encrypted: seq<string>,
    matchCalls: seq<Call>, encryptCalls: seq<Call>, diffCalls: seq<Call>, cleanCalls: seq<Call>)
    requires forall f :: f in encrypted ==> f in matched && !w.command(k.vaultTool, k.encryptArgs, f).failed
    requires forall c :: c in matchCalls ==> c.Glob?
    requires forall c :: c in encryptCalls ==> c.Tool?
    requires forall f :: GitDiff(f) in diffCalls ==> f in encrypted
    requires forall c :: c in cleanCalls ==> c.GitLog? || c.GitRestore?
    ensures forall f :: GitDiff(f) in matchCalls + encryptCalls + diffCalls + cleanCalls ==>
      f in matched && !w.command(k.vaultTool, k.encryptArgs, f).failed
  {
    forall f | GitDiff(f) in matchCalls + encryptCalls + diffCalls + cleanCalls
      ensures f in matched && !w.command(k.vaultTool, k.encryptArgs, f).failed
    {
      InFour(GitDiff(f), matchCalls, encryptCalls, diffCalls, cleanCalls);
    }
  }

  /** Match, then (if the tool is configured) Encrypt, Differ and Clean,
      draining Clean's output. */
  method EncryptCmdRun(k: SecretKeeper, w: World) returns (r: RunResult)
    ensures r.ConfigError? <==> |k.encryptArgs| == 0 || k.vaultTool == ""
    ensures r.Finished? ==>
      multiset(r.files) == multiset(Keep(Matched(k.filePatterns, w.glob), Restorable(w, k)))
    ensures r.Finished? ==> forall f :: f in r.files <==>
      && f in Matched(k.filePatterns, w.glob)
      && !w.command(k.vaultTool, k.encryptArgs, f).failed
      && |w.gitDiff(f).out| == 0
      && |w.gitLog(f).out| > 0
    ensures r.Finished? ==>
      Restores(r.calls) == (if |r.files| == 0 then [] else [GitRestore(r.files)])
    ensures r.Finished? && |r.files| > 0 ==> r.calls[|r.calls| - 1] == GitRestore(r.files)
    ensures r.Finished? ==>
      multiset(ToolRuns(r.calls))
      == multiset(Map(Matched(k.filePatterns, w.glob), ToolCall(k.vaultTool, k.encryptArgs)))
    ensures r.Finished? ==> forall f :: GitDiff(f) in r.calls ==>
      f in Matched(k.filePatterns, w.glob) && !w.command(k.vaultTool, k.encryptArgs, f).failed
    ensures r.Finished? ==>
      multiset(Diffs(r.calls))
      == multiset(Map(Keep(Matched(k.filePatterns, w.glob), ToolSucceeds(w, k.vaultTool, k.encryptArgs)), DiffCall))
    ensures r.Finished? ==> forall f :: GitLog(f) in r.calls ==>
      && f in Matched(k.filePatterns, w.glob)
      && !w.command(k.vaultTool, k.encryptArgs, f).failed
      && |w.gitDiff(f).out| == 0
  {
    var matched, matchCalls := MatchFiles(k, w);
    if !VaultToolDefined(k) {
      return ConfigError;
    }
    var encrypted, encryptCalls := Encrypt(k, w, matched);
    var undiffed, diffCalls := Differ(w, encrypted);
    var restored, cleanCalls := Clean(w, undiffed);
    EncryptSurvivors(w, k, matched, encrypted, undiffed, restored);
    EncryptTraceRestores(k, matched, encrypted, undiffed, restored, matchCalls, encryptCalls, diffCalls, cleanCalls);
    EncryptTraceTools(k, matched, encrypted, undiffed, restored, matchCalls, encryptCalls, diffCalls, cleanCalls);
    EncryptTraceDiffs(w, k, matched, encrypted, undiffed, restored, matchCalls, encryptCalls, diffCalls, cleanCalls);
    EncryptTraceDiffCount(w, k, matched, encrypted, undiffed, restored, matchCalls, encryptCalls, diffCalls, cleanCalls);
    EncryptTraceLogs(w, k, matched, encrypted, undiffed, restored, matchCalls, encryptCalls, diffCalls, cleanCalls);
    r := Finished(restored, matchCalls + encryptCalls + diffCalls + cleanCalls);
  }

  // ------------------------------------------------------------------ decrypt

  /** Match, then (if the tool is configured) Decrypt, draining its output.
      The guard is the encrypt command's: the decrypt arguments may be
      empty. */
  method DecryptCmdRun(k: SecretKeeper, w: World) returns (r: RunResult)
    ensures r.ConfigError? <==> |k.encryptArgs| == 0 || k.vaultTool == ""
    ensures r.Finished? ==>
      multiset(r.files)
      == multiset(Keep(Matched(k.filePatterns, w.glob), ToolSucceeds(w, k.vaultTool, k.decryptArgs)))
    ensures r.Finished? ==> forall f :: f in r.files <==>
      f in Matched(k.filePatterns, w.glob) && !w.command(k.vaultTool, k.decryptArgs, f).failed
    ensures r.Finished? ==> forall c :: c in r.calls ==> c.Glob? || c.Tool?
    ensures r.Finished? ==>
      multiset(ToolRuns(r.calls))
      == multiset(Map(Matched(k.filePatterns, w.glob), ToolCall(k.vaultTool, k.decryptArgs)))
  {
    var matched, matchCalls := MatchFiles(k, w);
    if !VaultToolDefined(k) {
      return ConfigError;
    }
    var decrypted, decryptCalls := Decrypt(k, w, matched);
    DecryptTrace(k, matched, matchCalls, decryptCalls);
    r := Finished(decrypted, matchCalls + decryptCalls);
  }

  /** A decrypt run globs, then runs the tool once per matched occurrence
      with the decrypt arguments, and touches git not at all. */
  lemma DecryptTrace(k: SecretKeeper, matched: seq<string>, matchCalls: seq<Call>, decryptCalls: seq<Call>)
    requires matchCalls == Map(k.filePatterns, GlobCall)
    requires multiset(decryptCalls) == multiset(Map(matched, ToolCall(k.vaultTool, k.decryptArgs)))
    ensures forall c :: c in matchCalls + decryptCalls ==> c.Glob? || c.Tool?
    ensures multiset(ToolRuns(matchCalls + decryptCalls))
         == multiset(Map(matched, ToolCall(k.vaultTool, k.decryptArgs)))
  {
    GlobTrace(k.filePatterns);
    ToolStageKinds(decryptCalls, matched, k.vaultTool, k.decryptArgs);
    FanOutTrace(decryptCalls, matched, ToolCall(k.vaultTool, k.decryptArgs));
    MapKeepAll(matched, ToolCall(k.vaultTool, k.decryptArgs), IsTool);
    KeepAppend(matchCalls, decryptCalls, IsTool);
  }

  // -------------------------------------------------------------------- clean

  /** Match, Differ and Clean, draining Clean's output. There is no guard:
      the command needs no tool. */
  method CleanCmdRun(k: SecretKeeper, w: World) returns (files: seq<string>, calls: seq<Call>)
    ensures multiset(files) == multiset(Keep(Matched(k.filePatterns, w.glob), Cleanable(w)))
    ensures forall f :: f in files <==>
      f in Matched(k.filePatterns, w.glob) && |w.gitDiff(f).out| == 0 && |w.gitLog(f).out| > 0
    ensures ToolRuns(calls) == []
    ensures Restores(calls) == (if |files| == 0 then [] else [GitRestore(files)])
    ensures |files| > 0 ==> calls[|calls| - 1] == GitRestore(files)
    ensures forall f :: GitLog(f) in calls ==> f in Matched(k.filePatterns, w.glob) && |w.gitDiff(f).out| == 0
    ensures multiset(Diffs(calls)) == multiset(Map(Matched(k.filePatterns, w.glob), DiffCall))
    ensures forall f :: GitDiff(f) in calls <==> f in Matched(k.filePatterns, w.glob)
  {
    var matched, matchCalls := MatchFiles(k, w);
    var undiffed, diffCalls := Differ(w, matched);
    var cleaned, cleanCalls := Clean(w, undiffed);
    CleanSurvivors(w, matched, undiffed, cleaned);
    CleanCmdTrace(w, k, matched, undiffed, cleaned, matchCalls, diffCalls, cleanCalls);
    CleanTraceDiffs(k, matched, undiffed, cleaned, matchCalls, diffCalls, cleanCalls);
    files, calls := cleaned, matchCalls + diffCalls + cleanCalls;
  }

  /** The files that survive Differ and Clean, whatever order Differ's
      goroutines finished in. */
  lemma CleanSurvivors(w: World, matched: seq<string>, undiffed: seq<string>, cleaned: seq<string>)
    requires multiset(undiffed) == multiset(Keep(matched, DiffIsEmpty(w)))
    requires forall f :: f in undiffed <==> f in matched && |w.gitDiff(f).out| == 0
    requires cleaned == Keep(undiffed, HistoryExists(w))
    ensures multiset(cleaned) == multiset(Keep(matched, Cleanable(w)))
    ensures forall f :: f in cleaned <==> f in matched && |w.gitDiff(f).out| == 0 && |w.gitLog(f).out| > 0
  {
    KeepAfterReorder(matched, undiffed, DiffIsEmpty(w), HistoryExists(w));
    forall f
      ensures f in cleaned <==> f in matched && |w.gitDiff(f).out| == 0 && |w.gitLog(f).out| > 0
    {
      KeepContains(undiffed, HistoryExists(w), f);
    }
  }

  /** A clean run globs, diffs, looks up history, and restores last; it
      never runs the tool, and looks up only matched files whose diff was
      empty. */
  lemma CleanCmdTrace(
    w: World, k: SecretKeeper, matched: seq<string>, undiffed: seq<string>, cleaned: seq<string>,
    matchCalls: seq<Call>, diffCalls: seq<Call>, cleanCalls: seq<Call>)
    requires forall f :: f in undiffed <==> f in matched && |w.gitDiff(f).out| == 0
    requires matchCalls == Map(k.filePatterns, GlobCall)
    requires multiset(diffCalls) == multiset(Map(matched, DiffCall))
    requires cleanCalls == Map(undiffed, LogCall) + Restores(cleanCalls)
    requires Restores(cleanCalls) == (if |cleaned| == 0 then [] else [GitRestore(cleaned)])
    ensures var calls := matchCalls + diffCalls + cleanCalls;
      && ToolRuns(calls) == []
      && Restores(calls) == Restores(cleanCalls)
      && (|cleaned| > 0 ==> calls[|calls| - 1] == GitRestore(cleaned))
      && forall f :: GitLog(f) in calls ==> f in matched && |w.gitDiff(f).out| == 0
  {
    GlobTrace(k.filePatterns);
    DiffStageFiles(diffCalls, matched);
    CleanTrace(cleanCalls, undiffed, cleaned);
    CleanStageKinds(cleanCalls, undiffed, cleaned);
    if |cleaned| > 0 {
      assert cleanCalls[|cleanCalls| - 1] == GitRestore(cleaned);
    }
    CleanRunCalls(matchCalls, diffCalls, cleanCalls, cleaned);
    LogsFollowDiffs(w, matched, undiffed, matchCalls, diffCalls, cleanCalls);
  }

  /** A clean run diffs every matched occurrence exactly once, and nothing
      else. */
  lemma CleanTraceDiffs(
    k: SecretKeeper, matched: seq<string>, undiffed: seq<string>, cleaned: seq<string>,
    matchCalls: seq<Call>, diffCalls: seq<Call>, cleanCalls: seq<Call>)
    requires matchCalls == Map(k.filePatterns, GlobCall)
    requires multiset(diffCalls) == multiset(Map(matched, DiffCall))
    requires cleanCalls == Map(undiffed, LogCall) + Restores(cleanCalls)
    requires Restores(cleanCalls) == (if |cleaned| == 0 then [] else [GitRestore(cleaned)])
    ensures multiset(Diffs(matchCalls + diffCalls + cleanCalls)) == multiset(Map(matched, DiffCall))
    ensures forall f :: GitDiff(f) in matchCalls + diffCalls + cleanCalls <==> f in matched
  {
    var calls := matchCalls + diffCalls + cleanCalls;
    GlobTrace(k.filePatterns);
    CleanStageKinds(cleanCalls, undiffed, cleaned);
    KeepNone(matchCalls, IsDiff);
    KeepNone(cleanCalls, IsDiff);
    KeepPermutation(diffCalls, Map(matched, DiffCall), IsDiff);
    MapKeepAll(matched, DiffCall, IsDiff);
    KeepAppend(matchCalls + diffCalls, cleanCalls, IsDiff);
    KeepAppend(matchCalls, diffCalls, IsDiff);
    DiffMembers(calls, matched);
  }

  /** A trace whose diffs are one per file of `files` diffs exactly the
      files in `files`. */
  lemma DiffMembers(calls: seq<Call>, files: seq<string>)
    requires multiset(Diffs(calls)) == multiset(Map(files, DiffCall))
    ensures forall f :: GitDiff(f) in calls <==> f in files
  {
    forall f
      ensures GitDiff(f) in calls <==> f in files
    {
      KeepContains(calls, IsDiff, GitDiff(f));
      assert GitDiff(f) in Diffs(calls) <==> GitDiff(f) in multiset(Diffs(calls));
      assert GitDiff(f) in Map(files, DiffCall) <==> GitDiff(f) in multiset(Map(files, DiffCall));
      if f in files {
        var i :| 0 <= i < |files| && files[i] == f;
        assert Map(files, DiffCall)[i] == GitDiff(f);
      }
    }
  }

  /** Tool runs and restores of a glob, diff, clean trace. */
  lemma CleanRunCalls(matchCalls: seq<Call>, diffCalls: seq<Call>, cleanCalls: seq<Call>, cleaned: seq<string>)
    requires forall c :: c in matchCalls ==> c.Glob?
    requires forall c :: c in diffCalls ==> c.GitDiff?
    requires ToolRuns(cleanCalls) == []
    requires Restores(cleanCalls) == (if |cleaned| == 0 then [] else [GitRestore(cleaned)])
    requires |cleaned| > 0 ==> |cleanCalls| > 0 && cleanCalls[|cleanCalls| - 1] == GitRestore(cleaned)
    ensures var calls := matchCalls + diffCalls + cleanCalls;
      && ToolRuns(calls) == []
      && Restores(calls) == Restores(cleanCalls)
      && (|cleaned| > 0 ==> calls[|calls| - 1] == GitRestore(cleaned))
  {
    KeepNone(matchCalls + diffCalls, IsTool);
    KeepNone(matchCalls + diffCalls, IsRestore);
    KeepAppend(matchCalls + diffCalls, cleanCalls, IsTool);
    KeepAppend(matchCalls + diffCalls, cleanCalls, IsRestore);
  }

  /** Only the clean stage looks up history, and only for what the diff
      stage forwarded. */
  lemma LogsFollowDiffs(
    w: World, matched: seq<string>, undiffed: seq<string>,
    matchCalls: seq<Call>, diffCalls: seq<Call>, cleanCalls: seq<Call>)
    requires forall f :: f in undiffed <==> f in matched && |w.gitDiff(f).out| == 0
    requires forall c :: c in matchCalls ==> c.Glob?
    requires forall c :: c in diffCalls ==> c.GitDiff?
    requires forall f :: GitLog(f) in cleanCalls ==> f in undiffed
    ensures forall f :: GitLog(f) in matchCalls + diffCalls + cleanCalls ==>
      f in matched && |w.gitDiff(f).out| == 0
  {
    forall f | GitLog(f) in matchCalls + diffCalls + cleanCalls
      ensures f in matched && |w.gitDiff(f).out| == 0
    {
      assert GitLog(f) in matchCalls + diffCalls || GitLog(f) in cleanCalls;
    }
  }

  /** Two clean runs that see the same glob, diff and history outputs
      restore the same files, as a multiset, whatever order their diff
      goroutines finished in. */
  method CleanRunsAgree(k: SecretKeeper, w1: World, w2: World)
    returns (files1: seq<string>, calls1: seq<Call>, files2: seq<string>, calls2: seq<Call>)
    requires forall p :: w1.glob(p).files == w2.glob(p).files
    requires forall f :: w1.gitDiff(f).out == w2.gitDiff(f).out
    requires forall f :: w1.gitLog(f).out == w2.gitLog(f).out
    ensures multiset(files1) == multiset(files2)
    ensures |Restores(calls1)| == |Restores(calls2)| <= 1
  {
    files1, calls1 := CleanCmdRun(k, w1);
    files2, calls2 := CleanCmdRun(k, w2);
    MatchedIgnoresGlobErrors(k.filePatterns, w1.glob, w2.glob);
    KeepSamePredicate(Matched(k.filePatterns, w1.glob), Cleanable(w1), Cleanable(w2));
  }

  /** Membership in a four-stage trace, stage by stage. */
  lemma InFour(x: Call, a: seq<Call>, b: seq<Call>, c: seq<Call>, d: seq<Call>)
    ensures x in a + b + c + d <==> x in a || x in b || x in c || x in d
  {
  }

  /** Restores and tool runs of a four-stage trace, stage by stage. */
  lemma TraceOfFour(a: seq<Call>, b: seq<Call>, c: seq<Call>, d: seq<Call>)
    ensures Restores(a + b + c + d) == Restores(a) + Restores(b) + Restores(c) + Restores(d)
    ensures ToolRuns(a + b + c + d) == ToolRuns(a) + ToolRuns(b) + ToolRuns(c) + ToolRuns(d)
  {
    KeepAppend(a + b + c, d, IsRestore);
    KeepAppend(a + b, c, IsRestore);
    KeepAppend(a, b, IsRestore);
    KeepAppend(a + b + c, d, IsTool);
    KeepAppend(a + b, c, IsTool);
    KeepAppend(a, b, IsTool);
  }
}

=== FILE: commander.dfy ===
/** The outside world as the pipeline sees it. Every external result (the glob
    expansion of a pattern, the output of `git diff`, `git log` and
    `git restore`, the exit status of the vault tool) is an oracle: a total
    function value held in a `World`, fixed for one run. Each invocation a
    stage makes is recorded as a `Call`. */
module Commander {
  import opened Seqs

  /** The captured output of one process and whether it reported an error. */
  datatype Output = Output(out: seq<bv8>, failed: bool)

  /** The files a pattern expands to and whether the expansion reported an
      error (a malformed pattern). */
  datatype GlobResult = GlobResult(files: seq<string>, failed: bool)

  datatype World = World(
    glob: string -> GlobResult,
    gitDiff: string -> Output,
    gitLog: string -> Output,
    gitRestore: seq<string> -> Output,
    command: (string, seq<string>, string) -> Output)

  /** One external invocation. */
  datatype Call =
    | Glob(pattern: string)
    | GitDiff(file: string)
    | GitLog(file: string)
    | GitRestore(files: seq<string>)
    | Tool(tool: string, args: seq<string>, file: string)

  function GlobCall(pattern: string): Call { Glob(pattern) }
  function DiffCall(file: string): Call { GitDiff(file) }
  function LogCall(file: string): Call { GitLog(file) }
  function ToolCall(tool: string, args: seq<string>): string -> Call
  {
    file => Tool(tool, args, file)
  }

  predicate IsRestore(c: Call) { c.GitRestore? }
  predicate IsTool(c: Call) { c.Tool? }
  predicate IsDiff(c: Call) { c.GitDiff? }

  /** The restore invocations of a trace, in order. */
  function Restores(calls: seq<Call>): seq<Call>
  {
    Keep(calls, IsRestore)
  }

  /** The `git diff` invocations of a trace, in order. */
  function Diffs(calls: seq<Call>): seq<Call>
  {
    Keep(calls, IsDiff)
  }

  /** The vault-tool invocations of a trace, in order. */
  function ToolRuns(calls: seq<Call>): seq<Call>
  {
    Keep(calls, IsTool)
  }

  /** `git diff <file>` printed nothing; its error status is not consulted. */
  function DiffIsEmpty(w: World): string -> bool
  {
    file => |w.gitDiff(file).out| == 0
  }

  /** `git log <file>` printed something; its error status is not consulted. */
  function HistoryExists(w: World): string -> bool
  {
    file => |w.gitLog(file).out| > 0
  }

  /** `<tool> <args...> <file>` returned no error. */
  function ToolSucceeds(w: World, tool: string, args: seq<string>): string -> bool
  {
    file => !w.command(tool, args, file).failed
  }
}

=== FILE: config.dfy ===
/** The configuration record the command layer loads and hands to the keeper. */
module Config {

  datatype Config = Config(
    filePatterns: seq<string>,
    debug: bool,
    vaultTool: string,
    encryptArgs: seq<string>,
    decryptArgs: seq<string>,
    viewArgs: seq<string>)

  /** The zero configuration: no patterns, no tool, no arguments, not debug. */
  function NewConfig(): Config
  {
    Config([], false, "", [], [], [])
  }
}

=== FILE: scenarios.dfy ===
/** Example runs of the commands: a concrete clean run against a fixed
    two-file world, a clean run with a single survivor in any world, and two
    configurations under which the encrypt command stops in every world. */
module Scenarios {
  import opened Seqs
  import opened Config
  import opened Commander
  import opened Secretkeeper
  import opened Cmd

  /** A keeper configured with the one pattern `*.secret` and no tool. */
  function SecretsOnly(): SecretKeeper
  {
    InitConfig(NewSecretKeeper(), Config(["*.secret"], false, "", [], [], []))
  }

  /** `*.secret` expands to `a.secret` and `b.secret`; `a.secret` is
      unchanged, `b.secret` is locally modified, and both have history. */
  function TwoSecrets(): World
  {
    World(
      p => if p == "*.secret" then GlobResult(["a.secret", "b.secret"], false) else GlobResult([], false),
      f => if f == "a.secret" then Output([], false) else Output([1], false),
      f => Output([1], false),
      fs => Output([], false),
      (t, args, f) => Output([], true))
  }

  /** The clean command restores the unchanged file alone, in one call, and
      forwards only it; the history of the modified file is never looked up. */
  method CleanRestoresUnchangedOnly() returns (files: seq<string>, calls: seq<Call>)
    ensures files == ["a.secret"]
    ensures Restores(calls) == [GitRestore(["a.secret"])]
    ensures GitLog("b.secret") !in calls
  {
    TwoSecretsCleanable();
    files, calls := CleanOne(SecretsOnly(), TwoSecrets(), "a.secret");
  }

  /** When exactly one matched occurrence is cleanable, the clean command
      forwards it and restores it, alone, in one call. */
  method CleanOne(k: SecretKeeper, w: World, x: string) returns (files: seq<string>, calls: seq<Call>)
    requires Keep(Matched(k.filePatterns, w.glob), Cleanable(w)) == [x]
    ensures files == [x]
    ensures Restores(calls) == [GitRestore([x])]
    ensures forall f :: GitLog(f) in calls ==> f in Matched(k.filePatterns, w.glob) && |w.gitDiff(f).out| == 0
  {
    files, calls := CleanCmdRun(k, w);
    SingletonMultiset(files, x);
  }

  /** Of the two matched files, the clean command's filter keeps the
      unchanged one. */
  lemma TwoSecretsCleanable()
    ensures Matched(SecretsOnly().filePatterns, TwoSecrets().glob) == ["a.secret", "b.secret"]
    ensures Keep(["a.secret", "b.secret"], Cleanable(TwoSecrets())) == ["a.secret"]
  {
    MatchedSingle("*.secret", TwoSecrets().glob);
    assert ["a.secret", "b.secret"][1..] == ["b.secret"];
  }

  /** The only sequence with exactly one occurrence of `x` and nothing else
      is `[x]`. */
  lemma SingletonMultiset<T>(s: seq<T>, x: T)
    requires multiset(s) == multiset{x}
    ensures s == [x]
  {
    assert |s| == |multiset(s)| == 1;
    assert s[0] in multiset(s);
  }

  /** A keeper with encrypt arguments but an empty tool name. */
  function ArgsWithoutTool(): SecretKeeper
  {
    InitConfig(NewSecretKeeper(), Config(["*.secret"], false, "", ["encrypt"], ["decrypt"], []))
  }

  /** With encrypt arguments but no tool name, the encrypt command stops
      with a configuration error, whatever the world. */
  method EncryptNeedsTool(w: World) returns (r: RunResult)
    ensures r == ConfigError
  {
    r := EncryptCmdRun(ArgsWithoutTool(), w);
  }

  /** A keeper initialised from the zero configuration has neither encrypt
      arguments nor a tool, so the encrypt command stops with a
      configuration error, whatever the world. */
  method ZeroConfigCannotEncrypt(w: World) returns (r: RunResult)
    ensures r == ConfigError
  {
    r := EncryptCmdRun(InitConfig(NewSecretKeeper(), NewConfig()), w);
  }
}

=== FILE: secret_keeper.dfy ===
/** The keeper: its configuration state and the five pipeline stages.
    MatchFiles and Clean each run in one goroutine and keep their input
    order; Differ, Encrypt and Decrypt start one goroutine per file, so the
    order in which they forward files is whichever order those goroutines
    finish in, and their contracts speak of multisets. */
module Secretkeeper {
  import opened Seqs
  import opened Config
  import opened Commander

  /** The logging levels, in the order that gives the zero level `PanicLevel`. */
  datatype LogLevel =
    | PanicLevel | FatalLevel | ErrorLevel | WarnLevel | InfoLevel | DebugLevel | TraceLevel

  datatype SecretKeeper = SecretKeeper(
    filePatterns: seq<string>,
    logLevel: LogLevel,
    vaultTool: string,
    encryptArgs: seq<string>,
    decryptArgs: seq<string>,
    viewArgs: seq<string>)
  {
    function GetEncryptArgs(): seq<string> { encryptArgs }
    function GetDecryptArgs(): seq<string> { decryptArgs }
    function GetViewArgs(): seq<string> { viewArgs }
    function GetVaultCommand(): string { vaultTool }
  }

  /** The keeper's own configuration file, never handed to later stages. */
  const ConfigFile: string := "config.secret-keeper.yaml"

  predicate IsMatchable(file: string)
  {
    file != ConfigFile
  }

  /** A keeper with every field at its zero value: it has no patterns, so it
      matches nothing, and no tool, so neither command may run the tool. */
  function NewSecretKeeper(): (k: SecretKeeper)
    ensures k.filePatterns == [] && k.vaultTool == "" && k.logLevel == PanicLevel
    ensures k.encryptArgs == [] && k.decryptArgs == [] && k.viewArgs == []
    ensures forall glob: string -> GlobResult :: Matched(k.filePatterns, glob) == []
  {
    SecretKeeper([], PanicLevel, "", [], [], [])
  }

  /** The keeper after reading `config`: the five configured values are taken
      over verbatim and the level is Debug when `config.debug` holds, Info
      otherwise. Nothing of the previous state survives. */
  function InitConfig(k: SecretKeeper, config: Config): (r: SecretKeeper)
    ensures r.GetEncryptArgs() == config.encryptArgs
    ensures r.GetDecryptArgs() == config.decryptArgs
    ensures r.GetViewArgs() == config.viewArgs
    ensures r.GetVaultCommand() == config.vaultTool
    ensures r.filePatterns == config.filePatterns
    ensures r.logLevel == DebugLevel <==> config.debug
    ensures r.logLevel == InfoLevel <==> !config.debug
  {
    SecretKeeper(
      config.filePatterns,
      if config.debug then DebugLevel else InfoLevel,
      config.vaultTool,
      config.encryptArgs,
      config.decryptArgs,
      config.viewArgs)
  }

  // ---------------------------------------------------------------- MatchFiles

  /** What the matcher emits: for each pattern in order, the files its glob
      returned in the order returned, minus the keeper's configuration file.
      Duplicates are kept and the glob's error flag is not consulted. */
  function Matched(patterns: seq<string>, glob: string -> GlobResult): (r: seq<string>)
    ensures forall i :: 0 <= i < |r| ==> r[i] != ConfigFile
  {
    if |patterns| == 0 then []
    else Keep(glob(patterns[0]).files, IsMatchable) + Matched(patterns[1..], glob)
  }

  /** A file is emitted iff it is not the configuration file and some
      pattern's glob returned it: the comparison is exact string equality. */
  lemma {:induction false} MatchedContains(patterns: seq<string>, glob: string -> GlobResult, f: string)
    ensures f in Matched(patterns, glob) <==>
      f != ConfigFile && exists j :: 0 <= j < |patterns| && f in glob(patterns[j]).files
  {
    if |patterns| > 0 {
      var here := Keep(glob(patterns[0]).files, IsMatchable);
      var rest := patterns[1..];
      MatchedContains(rest, glob, f);
      KeepContains(glob(patterns[0]).files, IsMatchable, f);
      if f in Matched(patterns, glob) {
        if f !in here {
          var j' :| 0 <= j' < |rest| && f in glob(rest[j']).files;
          assert rest[j'] == patterns[j' + 1];
        }
      }
      if f != ConfigFile && exists j :: 0 <= j < |patterns| && f in glob(patterns[j]).files {
        var j :| 0 <= j < |patterns| && f in glob(patterns[j]).files;
        if j > 0 {
          assert rest[j - 1] == patterns[j];
        }
      }
    }
  }

  /** Matching a concatenation of pattern lists emits the two results one
      after the other; a file found by two patterns is emitted twice. */
  lemma {:induction false} MatchedAppend(ps: seq<string>, qs: seq<string>, glob: string -> GlobResult)
    ensures Matched(ps + qs, glob) == Matched(ps, glob) + Matched(qs, glob)
  {
    if |ps| == 0 {
      assert ps + qs == qs;
    } else {
      assert (ps + qs)[1..] == ps[1..] + qs;
      MatchedAppend(ps[1..], qs, glob);
    }
  }

  /** The result depends only on the files each glob returned: a glob error
      on one pattern is only logged. */
  lemma {:induction false} MatchedIgnoresGlobErrors(
    patterns: seq<string>, glob1: string -> GlobResult, glob2: string -> GlobResult)
    requires forall p :: glob1(p).files == glob2(p).files
    ensures Matched(patterns, glob1) == Matched(patterns, glob2)
  {
    if |patterns| > 0 {
      MatchedIgnoresGlobErrors(patterns[1..], glob1, glob2);
    }
  }

  lemma MatchedSingle(p: string, glob: string -> GlobResult)
    ensures Matched([p], glob) == Keep(glob(p).files, IsMatchable)
  {
    assert [p][1..] == [];
  }

  lemma MatchedSnoc(patterns: seq<string>, i: nat, glob: string -> GlobResult)
    requires i < |patterns|
    ensures Matched(patterns[..i + 1], glob) == Matched(patterns[..i], glob) + Keep(glob(patterns[i]).files, IsMatchable)
  {
    assert patterns[..i + 1] == patterns[..i] + [patterns[i]];
    MatchedAppend(patterns[..i], [patterns[i]], glob);
    MatchedSingle(patterns[i], glob);
  }

  lemma MatchedDropEmpty(a: seq<string>, p: string, b: seq<string>, glob: string -> GlobResult)
    requires glob(p).files == []
    ensures Matched(a + [p] + b, glob) == Matched(a + b, glob)
  {
    MatchedAppend(a + [p], b, glob);
    MatchedAppend(a, [p], glob);
    MatchedAppend(a, b, glob);
    MatchedSingle(p, glob);
    assert Keep(glob(p).files, IsMatchable) == [];
  }

  /** A pattern that expands to nothing (a malformed one, say) contributes
      nothing and does not stop the patterns after it. */
  lemma MatchedSkipsEmptyPattern(patterns: seq<string>, j: nat, glob: string -> GlobResult)
    requires j < |patterns|
    requires glob(patterns[j]).files == []
    ensures Matched(patterns, glob) == Matched(patterns[..j] + patterns[j + 1..], glob)
  {
    var a, p, b := patterns[..j], patterns[j], patterns[j + 1..];
    SplitAt(patterns, j);
    MatchedDropEmpty(a, p, b, glob);
  }

  /** The expansion of `["*.go", "["]`, where `[` is a malformed pattern,
      is the `.go` files alone. */
  lemma MatchedBadPatternExample(glob: string -> GlobResult)
    requires glob("*.go") == GlobResult(["secret_keeper.go", "secret_keeper_test.go"], false)
    requires glob("[") == GlobResult([], true)
    ensures Matched(["*.go", "["], glob) == ["secret_keeper.go", "secret_keeper_test.go"]
  {
    var ps := ["*.go", "["];
    assert ps[1..] == ["["];
    assert ps[1..][1..] == [];
    var files := glob("*.go").files;
    assert files[1..][1..] == [];
  }

  /** The inner loop of the matcher: send on each globbed file, in order,
      unless it is exactly the configuration file. */
  method SendMatchable(found: seq<string>) returns (sent: seq<string>)
    ensures sent == Keep(found, IsMatchable)
  {
    sent := [];
    for j := 0 to |found|
      invariant sent == Keep(found[..j], IsMatchable)
    {
      KeepSnoc(found, j, IsMatchable);
      if found[j] != ConfigFile {
        sent := sent + [found[j]];
      }
    }
    assert found[..|found|] == found;
  }

  /** The matcher's goroutine: for each pattern, expand it and send on every
      file but the configuration file. */
  method MatchFiles(k: SecretKeeper, w: World) returns (files: seq<string>, calls: seq<Call>)
    ensures files == Matched(k.filePatterns, w.glob)
    ensures calls == Map(k.filePatterns, GlobCall)
  {
    var patterns := k.filePatterns;
    files, calls := [], [];
    for i := 0 to |patterns|
      invariant files == Matched(patterns[..i], w.glob)
      invariant calls == Map(patterns[..i], GlobCall)
    {
      var result := w.glob(patterns[i]);
      calls := calls + [Glob(patterns[i])];
      MapSnoc(patterns, i, GlobCall);
      var sent := SendMatchable(result.files);
      files := files + sent;
      MatchedSnoc(patterns, i, w.glob);
    }
    assert patterns[..|patterns|] == patterns;
  }

  // ------------------------------------------------------------------- fan-out

  /** One goroutine per input file, joined before the output is closed. Each
      goroutine makes one external call and forwards its file iff `forward`
      holds of it. The goroutines finish in any order: `order` is the order
      they finished in, a rearrangement of the input chosen freely. */
  method FanOut(files: seq<string>, forward: string -> bool, call: string -> Call)
    returns (out: seq<string>, calls: seq<Call>, order: seq<string>)
    ensures multiset(order) == multiset(files)
    ensures out == Keep(order, forward)
    ensures calls == Map(order, call)
  {
    var pending := multiset(files);
    out, calls, order := [], [], [];
    while pending != multiset{}
      invariant multiset(order) + pending == multiset(files)
      invariant out == Keep(order, forward)
      invariant calls == Map(order, call)
      decreases |pending|
    {
      var file :| file in pending;
      KeepMapPush(order, file, forward, call);
      calls := calls + [call(file)];
      if forward(file) {
        out := out + [file];
      }
      order := order + [file];
      pending := pending - multiset{file};
    }
  }

  /** The multiset view of a fan-out: it forwards the passing input
      occurrences and makes one call per input occurrence. */
  method FanOutAll(files: seq<string>, forward: string -> bool, call: string -> Call)
    returns (out: seq<string>, calls: seq<Call>)
    ensures multiset(out) == multiset(Keep(files, forward))
    ensures multiset(out) <= multiset(files)
    ensures forall f :: f in out <==> f in files && forward(f)
    ensures multiset(calls) == multiset(Map(files, call))
  {
    var order;
    out, calls, order := FanOut(files, forward, call);
    KeepPermutation(order, files, forward);
    MapPermutation(order, files, call);
    KeepMembers(files, out, forward);
    KeepSubMultiset(files, forward);
  }

  /** Forwards a file iff `git diff` printed nothing for it, whether or not
      the command reported an error; one diff per input occurrence. */
  method Differ(w: World, files: seq<string>) returns (out: seq<string>, calls: seq<Call>)
    ensures multiset(out) == multiset(Keep(files, DiffIsEmpty(w)))
    ensures multiset(out) <= multiset(files)
    ensures forall f :: f in out <==> f in files && |w.gitDiff(f).out| == 0
    ensures multiset(calls) == multiset(Map(files, DiffCall))
  {
    out, calls := FanOutAll(files, DiffIsEmpty(w), DiffCall);
  }

  /** Runs `<tool> <args...> <file>` once per input occurrence and forwards
      the file iff that run returned no error. */
  method RunTool(w: World, tool: string, args: seq<string>, files: seq<string>)
    returns (out: seq<string>, calls: seq<Call>)
    ensures multiset(out) == multiset(Keep(files, ToolSucceeds(w, tool, args)))
    ensures forall f :: f in out <==> f in files && !w.command(tool, args, f).failed
    ensures multiset(calls) == multiset(Map(files, ToolCall(tool, args)))
  {
    out, calls := FanOutAll(files, ToolSucceeds(w, tool, args), ToolCall(tool, args));
  }

  method Encrypt(k: SecretKeeper, w: World, files: seq<string>) returns (out: seq<string>, calls: seq<Call>)
    ensures multiset(out) == multiset(Keep(files, ToolSucceeds(w, k.vaultTool, k.encryptArgs)))
    ensures forall f :: f in out <==> f in files && !w.command(k.vaultTool, k.encryptArgs, f).failed
    ensures multiset(calls) == multiset(Map(files, ToolCall(k.vaultTool, k.encryptArgs)))
  {
    out, calls := RunTool(w, k.vaultTool, k.encryptArgs, files);
  }

  method Decrypt(k: SecretKeeper, w: World, files: seq<string>) returns (out: seq<string>, calls: seq<Call>)
    ensures multiset(out) == multiset(Keep(files, ToolSucceeds(w, k.vaultTool, k.decryptArgs)))
    ensures forall f :: f in out <==> f in files && !w.command(k.vaultTool, k.decryptArgs, f).failed
    ensures multiset(calls) == multiset(Map(files, ToolCall(k.vaultTool, k.decryptArgs)))
  {
    out, calls := RunTool(w, k.vaultTool, k.decryptArgs, files);
  }

  // --------------------------------------------------------------------- Clean

  /** The cleaner's goroutine: query each file's history in input order,
      forward and batch those whose `git log` printed something, and once the
      input is exhausted restore the whole batch in one call, if it is not
      empty. The restore's outcome is only logged. */
  method Clean(w: World, files: seq<string>) returns (out: seq<string>, calls: seq<Call>)
    ensures out == Keep(files, HistoryExists(w))
    ensures calls == Map(files, LogCall) + Restores(calls)
    ensures Restores(calls) == (if |out| == 0 then [] else [GitRestore(out)])
  {
    var restorable: seq<string> := [];
    calls := [];
    for i := 0 to |files|
      invariant restorable == Keep(files[..i], HistoryExists(w))
      invariant calls == Map(files[..i], LogCall)
    {
      var history := w.gitLog(files[i]);
      calls := calls + [GitLog(files[i])];
      MapSnoc(files, i, LogCall);
      KeepSnoc(files, i, HistoryExists(w));
      if |history.out| > 0 {
        restorable := restorable + [files[i]];
      }
    }
    assert files[..|files|] == files;
    var logs := calls;
    MapKeepNone(files, LogCall, IsRestore);
    if |restorable| > 0 {
      var _ := w.gitRestore(restorable);
      calls := calls + [GitRestore(restorable)];
      KeepAppend(logs, [GitRestore(restorable)], IsRestore);
      assert [GitRestore(restorable)][1..] == [];
    }
    out := restorable;
  }

  /** When no file has history (every `git log` prints nothing, whether or
      not it fails), Clean forwards nothing and issues no restore. */
  method CleanWithoutHistory(w: World, files: seq<string>) returns (out: seq<string>, calls: seq<Call>)
    requires forall f :: |w.gitLog(f).out| == 0
    ensures out == []
    ensures Restores(calls) == []
    ensures calls == Map(files, LogCall)
  {
    out, calls := Clean(w, files);
    KeepNone(files, HistoryExists(w));
  }
}

=== FILE: seqs.dfy ===
/** Order-preserving filtering and mapping over sequences, and the facts the
    pipeline stages need about them: how they distribute over concatenation,
    how they count occurrences, and how they behave under reordering. */
module Seqs {

  /** The conjunction of two predicates, as a predicate value. */
  function Both<T>(p: T -> bool, q: T -> bool): T -> bool
  {
    x => p(x) && q(x)
  }

  /** The elements of `s` that satisfy `p`, in their original order,
      duplicates included. */
  function Keep<T(!new)>(s: seq<T>, p: T -> bool): (r: seq<T>)
    ensures |r| <= |s|
    ensures forall i :: 0 <= i < |r| ==> p(r[i])
  {
    if |s| == 0 then []
    else (if p(s[0]) then [s[0]] else []) + Keep(s[1..], p)
  }

  /** `f` applied to every element of `s`, in order. */
  function Map<T, U>(s: seq<T>, f: T -> U): (r: seq<U>)
    ensures |r| == |s|
    ensures forall i :: 0 <= i < |s| ==> r[i] == f(s[i])
  {
    if |s| == 0 then [] else [f(s[0])] + Map(s[1..], f)
  }

  /** An element is kept iff it occurs in the input and passes. */
  lemma {:induction false} KeepContains<T(!new)>(s: seq<T>, p: T -> bool, x: T)
    ensures x in Keep(s, p) <==> x in s && p(x)
  {
    if |s| > 0 {
      KeepContains(s[1..], p, x);
      assert s == [s[0]] + s[1..];
    }
  }

  /** A sequence is its prefix, the element at `i` and its suffix. */
  lemma SplitAt<T>(s: seq<T>, i: nat)
    requires i < |s|
    ensures s == s[..i] + [s[i]] + s[i + 1..]
  {
  }

  lemma {:induction false} KeepAppend<T(!new)>(a: seq<T>, b: seq<T>, p: T -> bool)
    ensures Keep(a + b, p) == Keep(a, p) + Keep(b, p)
  {
    if |a| == 0 {
      assert a + b == b;
    } else {
      assert (a + b)[1..] == a[1..] + b;
      KeepAppend(a[1..], b, p);
    }
  }

  lemma {:induction false} MapAppend<T, U>(a: seq<T>, b: seq<T>, f: T -> U)
    ensures Map(a + b, f) == Map(a, f) + Map(b, f)
  {
    if |a| == 0 {
      assert a + b == b;
    } else {
      assert (a + b)[1..] == a[1..] + b;
      MapAppend(a[1..], b, f);
    }
  }

  /** Filtering a one-element-longer prefix adds that element iff it passes. */
  lemma KeepSnoc<T(!new)>(s: seq<T>, j: nat, p: T -> bool)
    requires j < |s|
    ensures Keep(s[..j + 1], p) == Keep(s[..j], p) + (if p(s[j]) then [s[j]] else [])
  {
    assert s[..j + 1] == s[..j] + [s[j]];
    KeepAppend(s[..j], [s[j]], p);
  }

  lemma MapSnoc<T, U>(s: seq<T>, j: nat, f: T -> U)
    requires j < |s|
    ensures Map(s[..j + 1], f) == Map(s[..j], f) + [f(s[j])]
  {
    assert s[..j + 1] == s[..j] + [s[j]];
    MapAppend(s[..j], [s[j]], f);
  }

  /** The occurrences of `x` among the kept elements: all of them if `x`
      passes, none otherwise. */
  lemma {:induction false} KeepCount<T(!new)>(s: seq<T>, p: T -> bool)
    ensures forall x :: multiset(Keep(s, p))[x] == if p(x) then multiset(s)[x] else 0
  {
    if |s| > 0 {
      KeepCount(s[1..], p);
      assert s == [s[0]] + s[1..];
      assert multiset(s) == multiset{s[0]} + multiset(s[1..]);
    }
  }

  /** Filtering only ever drops occurrences. */
  lemma KeepSubMultiset<T(!new)>(s: seq<T>, p: T -> bool)
    ensures multiset(Keep(s, p)) <= multiset(s)
  {
    KeepCount(s, p);
  }

  /** Filtering commutes with reordering: what the first stage passed, in any
      order, filtered by the second stage, is the input filtered by both. */
  lemma KeepAfterReorder<T(!new)>(a: seq<T>, b: seq<T>, p: T -> bool, q: T -> bool)
    requires multiset(b) == multiset(Keep(a, p))
    ensures multiset(Keep(b, q)) == multiset(Keep(a, Both(p, q)))
  {
    KeepCount(a, p);
    KeepCount(b, q);
    KeepCount(a, Both(p, q));
    forall x
      ensures multiset(Keep(b, q))[x] == multiset(Keep(a, Both(p, q)))[x]
    {
    }
  }

  /** Any rearrangement of the kept elements holds exactly the elements
      of the input that pass. */
  lemma KeepMembers<T(!new)>(a: seq<T>, b: seq<T>, p: T -> bool)
    requires multiset(b) == multiset(Keep(a, p))
    ensures forall x :: x in b <==> x in a && p(x)
  {
    forall x
      ensures x in b <==> x in a && p(x)
    {
      KeepContains(a, p, x);
      assert x in b <==> x in multiset(b);
      assert x in Keep(a, p) <==> x in multiset(Keep(a, p));
    }
  }

  /** One more element at the end: filtering adds it iff it passes, mapping
      adds its image. */
  lemma KeepMapPush<T(!new), U>(s: seq<T>, x: T, p: T -> bool, f: T -> U)
    ensures Keep(s + [x], p) == Keep(s, p) + (if p(x) then [x] else [])
    ensures Map(s + [x], f) == Map(s, f) + [f(x)]
  {
    KeepAppend(s, [x], p);
    MapAppend(s, [x], f);
    assert [x][1..] == [];
  }

  /** Filtering depends only on the predicate's values. */
  lemma {:induction false} KeepSamePredicate<T(!new)>(s: seq<T>, p: T -> bool, q: T -> bool)
    requires forall x :: p(x) == q(x)
    ensures Keep(s, p) == Keep(s, q)
  {
    if |s| > 0 {
      KeepSamePredicate(s[1..], p, q);
    }
  }

  lemma {:induction false} KeepNone<T(!new)>(s: seq<T>, p: T -> bool)
    requires forall x :: x in s ==> !p(x)
    ensures Keep(s, p) == []
  {
    if |s| > 0 {
      assert s[0] in s;
      assert forall x :: x in s[1..] ==> x in s;
      KeepNone(s[1..], p);
    }
  }

  lemma MapSplit<T, U>(a: seq<T>, x: T, b: seq<T>, f: T -> U)
    ensures multiset(Map(a + [x] + b, f)) == multiset(Map(a + b, f)) + multiset{f(x)}
  {
    MapAppend(a + [x], b, f);
    MapAppend(a, [x], f);
    MapAppend(a, b, f);
  }

  /** Taking element `i` out of `s` removes exactly its image from the map. */
  lemma MapRemoveAt<T, U>(s: seq<T>, i: nat, f: T -> U)
    requires i < |s|
    ensures multiset(Map(s, f)) == multiset(Map(s[..i] + s[i + 1..], f)) + multiset{f(s[i])}
  {
    SplitAt(s, i);
    MapSplit(s[..i], s[i], s[i + 1..], f);
  }

  lemma MultisetRemoveAt<T>(s: seq<T>, i: nat)
    requires i < |s|
    ensures multiset(s) == multiset(s[..i] + s[i + 1..]) + multiset{s[i]}
  {
    SplitAt(s, i);
  }

  lemma MultisetCancel<T>(m1: multiset<T>, m2: multiset<T>, x: T)
    requires m1 + multiset{x} == m2 + multiset{x}
    ensures m1 == m2
  {
    forall y
      ensures m1[y] == m2[y]
    {
      assert (m1 + multiset{x})[y] == (m2 + multiset{x})[y];
    }
  }

  /** Mapping commutes with reordering. */
  lemma {:induction false} MapPermutation<T, U>(a: seq<T>, b: seq<T>, f: T -> U)
    requires multiset(a) == multiset(b)
    ensures multiset(Map(a, f)) == multiset(Map(b, f))
    decreases |a|
  {
    if |a| == 0 {
      assert |b| == |multiset(b)|;
    } else {
      var x := a[0];
      assert x in multiset(b) by {
        assert x in a;
      }
      var j :| 0 <= j < |b| && b[j] == x;
      var rest := b[..j] + b[j + 1..];
      MultisetRemoveAt(b, j);
      MultisetRemoveAt(a, 0);
      assert a[..0] + a[1..] == a[1..];
      MultisetCancel(multiset(a[1..]), multiset(rest), x);
      MapPermutation(a[1..], rest, f);
      MapRemoveAt(b, j, f);
      MapRemoveAt(a, 0, f);
    }
  }

  /** Filtering commutes with reordering. */
  lemma KeepPermutation<T(!new)>(a: seq<T>, b: seq<T>, p: T -> bool)
    requires multiset(a) == multiset(b)
    ensures multiset(Keep(a, p)) == multiset(Keep(b, p))
  {
    KeepCount(a, p);
    KeepCount(b, p);
  }

  /** Mapping into values that all pass keeps the whole map. */
  lemma {:induction false} MapKeepAll<T, U(!new)>(s: seq<T>, f: T -> U, p: U -> bool)
    requires forall x :: p(f(x))
    ensures Keep(Map(s, f), p) == Map(s, f)
  {
    if |s| > 0 {
      MapKeepAll(s[1..], f, p);
      assert Map(s, f)[1..] == Map(s[1..], f);
    }
  }

  /** Mapping into values that all fail keeps nothing. */
  lemma {:induction false} MapKeepNone<T, U(!new)>(s: seq<T>, f: T -> U, p: U -> bool)
    requires forall x :: !p(f(x))
    ensures Keep(Map(s, f), p) == []
  {
    if |s| > 0 {
      MapKeepNone(s[1..], f, p);
      assert Map(s, f)[1..] == Map(s[1..], f);
    }
  }
}
